=== FILE: README.md ===
# NamiBot search core in Dafny

NamiBot is a Telegram bot that searches the web for PDF files. A user types a
query and the bot searches twice: once across the whole web and once on
archive.org only. It shows the hits as a two-page list of inline buttons, and
clicking a hit sends the file. Ordinary users may search twice per two hours.
Users on the super-user roster search without limit.

This project models the deterministic core of `bot.py` as pure functions over
immutable state:

- `Ids`: Telegram's numeric user and chat identifiers.
- `Text`: the Python string operations the bot relies on: `startswith`,
  `strip()`, `split(sep)` and `split(sep, 1)`. The bot never calls `join`;
  `Text.Join` is there only to state that `split` loses nothing.
- `Links`: turning a scraped `href` into a URL, and capping the result list.
- `Quota`: the per-user search tracker. It allows 2 searches, and its lazy
  reset fires strictly after 2 hours. With a count at the limit and no
  timestamp, the code reads `elapsed_time` before assigning it and raises
  `UnboundLocalError` instead of allowing the search. The model keeps this
  path as `Quota.Decision.Unbound`.
- `UrlCache`: the per-chat cache `chat -> fingerprint -> {title, url}`. A
  page render puts entries. A `pdf:` click takes one out, so it can be
  redeemed at most once.
- `Pages`: `send_results_page`. It covers title truncation, the button
  layout, the navigation row, and the parsing of the `pdf:`, `next_page:` and
  `prev_page:` payloads back into fingerprint, page and query.
- `SuperUsers`: the `special_users` roster and `/addsuperuser`, including
  the `AttributeError` raised when a forwarded message's original sender
  cannot be resolved.
- `Bot`: the handlers composed over one state record
  `(roster, tracker, cache)`, plus the invariant every handler keeps. The
  invariant says that quota records are consistent and the developer is on
  the roster. From it follows that the `elapsed_time` failure cannot happen.

Time is whole seconds. The search results and the URL fingerprint function are
parameters:

- A fingerprint is any deterministic function to 32 lower-case hex digits,
  standing in for MD5.
- The results are what the two network searches returned for the query.

## Model

| member | source | states |
|---|---|---|
| Text.Strip | bot.py:123-124 | the stripped query is a slice of the text with only whitespace (Python's `isspace` set) cut from both ends; it is empty exactly when the text is blank |
| Text.Split | bot.py:75 | `split(sep)` gives at least one piece, more than one exactly when `sep` occurs, no piece contains `sep`, and joining the pieces with `sep` gives back the text |
| Text.FirstPiece | bot.py:75 | `split(sep)[0]` is a prefix of the text free of `sep`; when `sep` occurs it is followed in the text by that `sep`, and otherwise it is the whole text |
| Text.LastPiece | bot.py:75 | `split(sep)[-1]` is a suffix of the text free of `sep`; when `sep` occurs it is directly preceded in the text by that `sep`, and otherwise it is the whole text |
| Text.SplitOnce | bot.py:214 | `split(sep, 1)` cuts at most once; with two pieces, text == first + sep + second and the first piece is free of `sep` |
| Links.ExtractUrl | bot.py:74-76 | the URL is a piece of the href, never contains `&` or `?q=`, and equals the href when the href contains neither |
| Links.ExtractFromRedirect | bot.py:75 | for a redirect link `prefix?q=target&rest` whose prefix and target hold no `&` or `?q=`, extraction returns exactly the target |
| Links.TakePrefix | bot.py:77 | Python's `xs[:n]` returns a prefix of length min(n, len) for n >= 0, and counts from the end for negative n |
| Links.CleanResults | bot.py:69-77 | the result list keeps hit order and titles and cleans each href by ExtractUrl; its length is min(hits, `num_results`) (for a negative bound, that many fewer than the hits, but not below 0), and no URL contains `&` |
| Quota.AfterReset | bot.py:136-141 | the record is either kept or started over, changes only when more than 2 hours (strictly) have passed since the last search, is never stale afterwards, and stays consistent when it was |
| Quota.RetryAfter | bot.py:144-147 | the reported hours and minutes (minutes < 60) add up to the remaining part of the 2-hour window rounded down to a minute, with hours <= 2, whenever the last search is at most a window old |
| Quota.Check | bot.py:132-151 | a search is allowed iff the record after the lazy reset is below 2, and then counts one more search stamped now; a denial leaves the tracker unchanged and reports the retry time; the unassigned-`elapsed_time` failure happens iff the count is at the limit with no timestamp; other users' records never change |
| Quota.CheckKeepsConsistent | bot.py:46-48 | every check keeps each record at most at the limit and stamped whenever its count is positive |
| Quota.ConsistentNeverUnbound | bot.py:136-144 | on consistent records the denial branch is only reached after `elapsed_time` has been assigned |
| Quota.ExpiredRecordStartsOver | bot.py:136-151 | once more than 2 hours have passed since the last search, the user is allowed and the record becomes count 1 stamped now |
| Quota.ThirdSearchInWindowDenied | bot.py:143-151 | from a fresh record two searches are allowed, and a third within 2 hours of the second is denied without changing the tracker |
| Quota.ThreeHoursLaterAllowed | bot.py:136-151 | a user at the limit whose last search was 3 hours ago is allowed and left with count 1 |
| Quota.TenMinutesLaterDenied | bot.py:143-147 | a user at the limit whose last search was 10 minutes ago is denied and told 1h 50m |
| UrlCache.Put | bot.py:96-97 | storing under (chat, fingerprint) overwrites that entry only; other fingerprints and other chats keep their entries |
| UrlCache.Take | bot.py:285-326 | the lookup returns the cached entry if present, and afterwards that fingerprint is gone from the chat while everything else is unchanged |
| UrlCache.TakeOnce | bot.py:97 | taking what was just put yields it, and a second take of the same fingerprint misses |
| UrlCache.StoreAll | bot.py:95-97 | after rendering, the chat holds its old fingerprints plus those of the shown results; each fingerprint holds the last result that has it; fingerprints not rendered and other chats keep their entries |
| Pages.Truncate | bot.py:99 | a button title has at most 50 characters; it equals the title iff the title has at most 50, and otherwise is the first 47 characters followed by "..." |
| Pages.ParsePdf | bot.py:280-284 | a click is routed to the PDF handler iff it matches `pdf:(.+)`; the fingerprint read from it is colon-free and is exactly the text after `pdf:` up to the next colon or the end |
| Pages.ParseNav | bot.py:212-214 | data is a page turn iff it starts with `next_page:` or `prev_page:`; the page is 1 for `next_page:` and 0 otherwise, and the query is a suffix of the data |
| Pages.NextRoundTrip | bot.py:104 | decoding the "next" payload gives page 1 and exactly the query, colons included |
| Pages.PrevRoundTrip | bot.py:106 | decoding the "previous" payload gives page 0 and exactly the query, colons included |
| Pages.PdfRoundTrip | bot.py:100 | decoding a result button's payload gives back the fingerprint it carries |
| Pages.NavRowIsCorrect | bot.py:102-108 | the navigation row has at most one button, labelled "next" or "previous": "next" iff page 0 with archive results, "previous" iff page 1, each decoding to its target page and the same query |
| Pages.StoredResultsResolve | bot.py:95-100 | after a render, looking up the fingerprint of any shown result finds that result |
| Pages.RenderPage | bot.py:91-116 | a page shows the global results on page 0 and the archive results otherwise, in order, one row each with the truncated title and a payload that decodes to the URL's fingerprint, then exactly one navigation row; every shown result can be fetched from the updated cache; the text is the header for that page and query |
| Pages.Header | bot.py:110-111 | the header is the page's title line, then the query exactly as searched, then a blank line: the query can be read back from it |
| Pages.HeaderTellsPages | bot.py:110 | the global page's header differs from every archive page's header, whatever the two queries |
| SuperUsers.AddSuperuser | bot.py:225-252 | the caller is refused iff not the developer; a reply is required; a forward whose origin is unresolved fails with the roster unchanged; the user is reported as already a super user iff known and on the roster, and added iff known and new, gaining exactly that entry; existing entries are never overwritten |
| SuperUsers.RosterOnlyGrows | bot.py:245-249 | over any run of commands, members stay members under their original names |
| SuperUsers.OnlyDeveloperChangesRoster | bot.py:229-231 | commands none of which the developer sent leave the roster unchanged |
| Bot.SearchGate | bot.py:118-151 | texts starting with `/`, blank texts and super users leave the tracker untouched; all other senders go through the quota check with the stripped, non-empty text as the query |
| Bot.Answer | bot.py:143-165 | once the gate has decided: a page is shown iff the search may go ahead and either result list is non-empty, and then it is page 0 of the global results sent as a new message, with every shown result fetchable and a "next" button carrying the query exactly when there are archive results, under the page-0 header for the query; "no PDFs" iff it may go ahead with both lists empty; a denial reports the gate's retry time; the unassigned-variable failure, commands and blank texts are reported as such and change nothing |
| Bot.OnMessage | bot.py:118-165 | a text message changes the tracker only through the gate and never changes the roster; page 0 is shown as a new message iff the gate lets the search go ahead and either list is non-empty, with one correct, fetchable button per global result, the header for the stripped text, and a "next" button for that text exactly when there are archive results; "no PDFs" iff it goes ahead with both lists empty; the user is told the retry time iff the quota check denies, and then it is the check's hours and minutes; the cache changes only when a page is shown |
| Bot.OnNavigate | bot.py:272-278 | a page-turn click shows the decoded page in place of the old one: the shown results in order with correct, fetchable buttons and a correct navigation row for the decoded page and query, under that page's header for the decoded query; it never touches the tracker; other data is ignored |
| Bot.OnPdfClick | bot.py:280-326 | a `pdf:` click finds the cached result iff its fingerprint is cached for the chat, and then removes exactly that entry; otherwise the user is asked to search again and the chat's entries are unchanged; other chats are unchanged |
| Bot.OnAddSuperuser | bot.py:225-252 | only the developer changes the roster and members keep their names; an unresolved forward origin makes the handler fail with nothing changed; otherwise the roster and the reply are exactly `AddSuperuser`'s, so the developer's reply to a new user's message adds that user; the tracker and cache are untouched |
| Bot.InitialInvariant | bot.py:36-48 | the starting state has consistent (empty) quota records and the developer on the roster |
| Bot.HandlersKeepInvariant | bot.py:36-48 | every handler keeps the quota records consistent and the developer on the roster |
| Bot.NeverUnbound | bot.py:136-148 | in a reachable state the search handler never fails on the unassigned `elapsed_time` |
| Bot.DeveloperUnlimited | bot.py:17 | in a reachable state the developer is never limited and never counted |
| Bot.SearchThenNext | bot.py:103-104 | a search whose first page is shown with archive results offers a "next" button decoding to page 1 and the stripped text as the query |
| Bot.NextThenPrevious | bot.py:102-106 | after "next" the archive results are shown with correct buttons, and the page's "previous" button decodes to page 0 and the same query |
| Bot.PreviousThenNext | bot.py:102-106 | after "previous" the global results are shown with correct buttons, and with archive results the page's "next" button decodes to page 1 and the same query |
| Bot.SecondClickMisses | bot.py:324-326 | a result button works once; the second click asks the user to search again |
| Bot.ShownResultIsFetchable | bot.py:95-100 | clicking the button of a result shown on a freshly rendered first page finds that result |
| Bot.ClickFindsResult | bot.py:284-288 | with rows and cache as a render leaves them, clicking the button of a shown result finds that result |

## Left out

- Telegram I/O is not modelled. This covers sends, edits, callback answers, the "super user" notice, forwarding to the storage group and log channel, `FloodWaitError` sleeps and `ChatIdInvalidError`. `PdfFound` stands for "the file is then sent".
- The HTTP fetch and BeautifulSoup parsing (bot.py:58-73) are left out. Hits arrive as a list of `(title, href)` pairs.
- Retries with random backoff (bot.py:83-89) are left out. They involve floating-point sleep and randomness.
- MD5 is not modelled. The fingerprint is a parameter of type `string -> Digest`.
- Environment loading (`get_env`) and the Flask webhook in `host.py` are plumbing, not core logic.
- `/start`, `/help`, the donation callback and `/broadcast` only send messages.
- `message_handler` records every sender in `all_user_ids` (bot.py:264-269). The set only feeds `/broadcast`, so it is left out with it.
- The catch-all callback handler (bot.py:196-221) also receives `pdf:` clicks, and it handles every `next_page:`/`prev_page:` click a second time (bot.py:212-217): in the code each page turn runs two pairs of searches, two edits and two cache stores, where the model runs one. The order in which overlapping handlers run, and the interleaving of async handlers, are concurrency concerns. That includes the race in which two quick clicks both find an entry before either deletes it.
- A failure of `get_entity` before the cache lookup, and a replied-to message that cannot be fetched, are left out. Both are transport errors. A replied-to message whose own sender cannot be resolved is left out too: the model assumes a direct reply always has a sender.
- Telegram's 64-byte limit on callback data is left out. With it, a "next" payload longer than 64 UTF-8 bytes (a query of more than 54 bytes) makes `Button.inline` raise at bot.py:104. That happens after the search was counted and the page's entries were stored (bot.py:97), and `handle_message`'s `except` (bot.py:163-164) then replies with the generic error instead of a page. The model shows the page for such queries.
- Quota.RetryAfter: time is whole seconds, so the sub-second part of `timedelta` is not modelled. The real answer can be one minute lower when the elapsed time has a fractional second.

=== FILE: bot.dfy ===
/** The bot's handlers over its in-memory state: the super-user roster, the
    search tracker and the URL cache. Each handler is a pure step from the
    old state to the new state and what the user is told. Search results
    (the outcome of the network calls) and the URL fingerprint function are
    parameters. */
module Bot {
  import opened Wrappers
  import opened Ids
  import opened Text
  import opened Links
  import opened Quota
  import opened UrlCache
  import opened Pages
  import opened SuperUsers

  datatype State = State(roster: Roster, tracker: Tracker, cache: Cache)

  const Initial := State(InitialRoster, map[], map[])

  /** How `handle_message` routes a text before any search (bot.py:118-151). */
  datatype Gate =
    | Command                              // starts with "/": left to the command handlers
    | Blank                                // nothing but whitespace
    | Unlimited(query: string)             // a super user: no quota
    | Counted(decision: Decision, query: string)

  predicate Proceeds(g: Gate) {
    g.Unlimited? || (g.Counted? && g.decision.Allowed?)
  }

  /** The gate of `handle_message`. Commands, blank texts and super users
      never touch the tracker; everyone else goes through the quota check,
      with the stripped text as the query. */
  function SearchGate(roster: Roster, tracker: Tracker, sender: UserId, text: string, now: Time): (r: (Tracker, Gate))
    ensures StartsWith(text, "/") ==> r == (tracker, Command)
    ensures r.1.Blank? <==> !StartsWith(text, "/") && AllSpace(text)
    ensures !r.1.Counted? ==> r.0 == tracker
    ensures r.1.Counted? <==> !StartsWith(text, "/") && !AllSpace(text) && sender !in roster
    ensures r.1.Unlimited? <==> !StartsWith(text, "/") && !AllSpace(text) && sender in roster
    ensures r.1.Counted? ==> (r.0, r.1.decision) == Check(tracker, sender, now)
    ensures (r.1.Unlimited? || r.1.Counted?) ==> r.1.query == Strip(text) && r.1.query != []
  {
    if StartsWith(text, "/") then (tracker, Command)
    else
      var query := Strip(text);
      if query == [] then (tracker, Blank)
      else if sender in roster then (tracker, Unlimited(query))
      else
        var (t, d) := Check(tracker, sender, now);
        (t, Counted(d, query))
  }

  /** What the user sees in answer to an event. */
  datatype Reply =
    | Ignored
    | AskForSearchTerm
    | LimitReached(hours: int, minutes: int)
    | HandlerFailed                        // the handler raised: nothing is sent
    | NoPdfsFound
    | ShowPage(message: Message)
    | PdfFound(entry: Entry)               // the file is then sent to the chat
    | SearchAgain                          // fingerprint not (or no longer) cached
    | UnknownAction
    | Roster(outcome: AddOutcome)

  /** The reply to a text once the gate has decided (bot.py:143-165);
      `global` and `archive` are what the two searches for the query
      return. A search that goes ahead shows page 0 of the global results
      as a new message when either list is non-empty, storing its results
      for the chat; every other outcome leaves the state alone. */
  function Answer(st: State, gate: Gate, chat: ChatId,
                  global: seq<SearchResult>, archive: seq<SearchResult>, hash: Hasher): (r: (State, Reply))
    ensures r.0.roster == st.roster && r.0.tracker == st.tracker
    ensures r.1.ShowPage? <==> Proceeds(gate) && (|global| > 0 || |archive| > 0)
    ensures r.1 == NoPdfsFound <==> Proceeds(gate) && |global| == 0 && |archive| == 0
    ensures r.1.LimitReached? <==> gate.Counted? && gate.decision.Denied?
    ensures r.1.LimitReached? ==> gate.decision == Denied(r.1.hours, r.1.minutes)
    ensures r.1.HandlerFailed? <==> gate.Counted? && gate.decision.Unbound?
    ensures r.1 == Ignored <==> gate.Command?
    ensures r.1 == AskForSearchTerm <==> gate.Blank?
    ensures !r.1.ShowPage? ==> r.0.cache == st.cache
    ensures r.1.ShowPage? ==> r.0.cache == StoreAll(st.cache, chat, global, hash)
    ensures r.1.ShowPage? ==> r.1.message.delivery == Respond && |r.1.message.rows| == |global| + 1
    ensures r.1.ShowPage? ==> ResultRowsCorrect(r.1.message.rows, global, hash)
    ensures r.1.ShowPage? ==> ShownResultsCached(r.0.cache, chat, global, hash)
    ensures r.1.ShowPage? ==>
      NavRowCorrect(r.1.message.rows[|r.1.message.rows| - 1], archive, 0, gate.query)
    ensures r.1.ShowPage? ==> r.1.message.text == Header(0, gate.query)
  {
    if gate.Command? then (st, Ignored)
    else if gate.Blank? then (st, AskForSearchTerm)
    else if gate.Counted? && gate.decision.Denied? then
      (st, LimitReached(gate.decision.hours, gate.decision.minutes))
    else if gate.Counted? && gate.decision.Unbound? then (st, HandlerFailed)
    else if |global| > 0 || |archive| > 0 then
      var (cache, page) := RenderPage(st.cache, chat, global, archive, 0, gate.query, hash, Respond);
      (st.(cache := cache), ShowPage(page))
    else (st, NoPdfsFound)
  }

  /** A text message from `sender` in `chat` at `now` (bot.py:118-165): the
      gate updates the tracker, then `Answer` replies. Only the quota check
      changes the tracker, and a search that goes ahead makes every shown
      result fetchable from the chat's cache. */
  function OnMessage(st: State, sender: UserId, chat: ChatId, text: string, now: Time,
                     global: seq<SearchResult>, archive: seq<SearchResult>, hash: Hasher): (r: (State, Reply))
    ensures r.0.roster == st.roster
    ensures r.0.tracker == SearchGate(st.roster, st.tracker, sender, text, now).0
    ensures r.1.ShowPage? ==> ResultRowsCorrect(r.1.message.rows, global, hash)
    ensures r.1.ShowPage? ==> ShownResultsCached(r.0.cache, chat, global, hash)
    ensures var g := SearchGate(st.roster, st.tracker, sender, text, now).1;
      && (r.1.ShowPage? <==> Proceeds(g) && (|global| > 0 || |archive| > 0))
      && (r.1 == NoPdfsFound <==> Proceeds(g) && |global| == 0 && |archive| == 0)
      && (r.1.LimitReached? <==> g.Counted? && g.decision.Denied?)
      && (r.1.LimitReached? ==> g.decision == Denied(r.1.hours, r.1.minutes))
    ensures r.1.ShowPage? ==>
      && r.1.message.delivery == Respond
      && |r.1.message.rows| == |global| + 1
      && r.1.message.text == Header(0, Strip(text))
      && r.0.cache == StoreAll(st.cache, chat, global, hash)
      && NavRowCorrect(r.1.message.rows[|r.1.message.rows| - 1], archive, 0, Strip(text))
    ensures !r.1.ShowPage? ==> r.0.cache == st.cache
  {
    var gated := SearchGate(st.roster, st.tracker, sender, text, now);
    Answer(st.(tracker := gated.0), gated.1, chat, global, archive, hash)
  }

  /** A `next_page:` / `prev_page:` click in `chat`: the page named by the
      payload, for the query it carries, is shown in place of the old one.
      `global` and `archive` are the fresh search results for that query.
      Page turns are not counted against the quota. */
  function OnNavigate(st: State, chat: ChatId, data: string,
                      global: seq<SearchResult>, archive: seq<SearchResult>, hash: Hasher): (r: (State, Reply))
    ensures r.0.roster == st.roster && r.0.tracker == st.tracker
    ensures r.1.ShowPage? <==> ParseNav(data).Some?
    ensures r.1.ShowPage? ==>
      var nav := ParseNav(data).value;
      var shown := Shown(global, archive, nav.page);
      var rows := r.1.message.rows;
      && r.1.message.delivery == Edit
      && r.0.cache == StoreAll(st.cache, chat, shown, hash)
      && |rows| == |shown| + 1
      && ResultRowsCorrect(rows, shown, hash)
      && ShownResultsCached(r.0.cache, chat, shown, hash)
      && NavRowCorrect(rows[|rows| - 1], archive, nav.page, nav.query)
      && r.1.message.text == Header(nav.page, nav.query)
    ensures !r.1.ShowPage? ==> r == (st, UnknownAction)
  {
    match ParseNav(data)
    case None => (st, UnknownAction)
    case Some(nav) =>
      var (cache, page) := RenderPage(st.cache, chat, global, archive, nav.page, nav.query, hash, Edit);
      (st.(cache := cache), ShowPage(page))
  }

  /** A `pdf:` click in `chat` (bot.py:280-326): the cached result is found
      and removed, or the user is asked to search again. */
  function OnPdfClick(st: State, chat: ChatId, data: string): (r: (State, Reply))
    ensures r.0.roster == st.roster && r.0.tracker == st.tracker
    ensures !IsPdfData(data) ==> r == (st, UnknownAction)
    ensures IsPdfData(data) ==> (r.1.PdfFound? || r.1.SearchAgain?)
    ensures r.1.PdfFound? <==>
      IsPdfData(data) && IsDigest(ParsePdf(data).value)
      && ParsePdf(data).value in EntriesOf(st.cache, chat)
    ensures r.1.PdfFound? ==>
      && r.1.entry == EntriesOf(st.cache, chat)[ParsePdf(data).value]
      && EntriesOf(r.0.cache, chat) == EntriesOf(st.cache, chat) - {ParsePdf(data).value}
    ensures r.1.SearchAgain? ==> EntriesOf(r.0.cache, chat) == EntriesOf(st.cache, chat)
    ensures forall other :: other in st.cache && other != chat ==>
      other in r.0.cache && r.0.cache[other] == st.cache[other]
  {
    match ParsePdf(data)
    case None => (st, UnknownAction)
    case Some(h) =>
      if IsDigest(h) then
        var (cache, found) := Take(st.cache, chat, h);
        match found
        case Some(e) => (st.(cache := cache), PdfFound(e))
        case None => (st.(cache := cache), SearchAgain)
      else
        (st.(cache := st.cache[chat := EntriesOf(st.cache, chat)]), SearchAgain)
  }

  /** `/addsuperuser` from `caller` (bot.py:225-252). An unresolved forward
      origin makes the handler raise: nothing is sent and nothing changes. */
  function OnAddSuperuser(st: State, caller: UserId, reply: Option<Replied>): (r: (State, Reply))
    ensures r.0.tracker == st.tracker && r.0.cache == st.cache
    ensures caller != DeveloperId ==> r == (st, Roster(NotAuthorized))
    ensures r.1 == HandlerFailed <==>
      caller == DeveloperId && reply.Some? && Candidate(reply.value).None?
    ensures r.1 == HandlerFailed ==> r.0 == st
    ensures st.roster.Keys <= r.0.roster.Keys
    ensures forall id :: id in st.roster ==> r.0.roster[id] == st.roster[id]
    ensures r.1 != HandlerFailed ==>
      var (roster, outcome) := AddSuperuser(st.roster, caller, reply);
      r.0.roster == roster && r.1 == Roster(outcome)
  {
    var (roster, outcome) := AddSuperuser(st.roster, caller, reply);
    if outcome.UnknownOrigin? then (st, HandlerFailed)
    else (st.(roster := roster), Roster(outcome))
  }

  /** What every reachable state satisfies: consistent quota records, and
      the developer on the roster. */
  predicate Invariant(st: State) {
    TrackerConsistent(st.tracker) && DeveloperId in st.roster
  }

  lemma InitialInvariant()
    ensures Invariant(Initial)
  {
  }

  /** Every handler keeps the invariant. */
  lemma HandlersKeepInvariant(st: State, sender: UserId, chat: ChatId, text: string, now: Time,
                              data: string, reply: Option<Replied>,
                              global: seq<SearchResult>, archive: seq<SearchResult>, hash: Hasher)
    requires Invariant(st)
    ensures Invariant(OnMessage(st, sender, chat, text, now, global, archive, hash).0)
    ensures Invariant(OnNavigate(st, chat, data, global, archive, hash).0)
    ensures Invariant(OnPdfClick(st, chat, data).0)
    ensures Invariant(OnAddSuperuser(st, sender, reply).0)
  {
    CheckKeepsConsistent(st.tracker, sender, now);
  }

  /** In a reachable state the search handler never fails on the unassigned
      `elapsed_time`. */
  lemma NeverUnbound(st: State, sender: UserId, chat: ChatId, text: string, now: Time,
                     global: seq<SearchResult>, archive: seq<SearchResult>, hash: Hasher)
    requires Invariant(st)
    ensures OnMessage(st, sender, chat, text, now, global, archive, hash).1 != HandlerFailed
  {
    ConsistentNeverUnbound(st.tracker, sender, now);
  }

  /** In a reachable state the developer is never limited and never counted. */
  lemma DeveloperUnlimited(st: State, chat: ChatId, text: string, now: Time,
                           global: seq<SearchResult>, archive: seq<SearchResult>, hash: Hasher)
    requires Invariant(st)
    ensures var r := OnMessage(st, DeveloperId, chat, text, now, global, archive, hash);
      r.0.tracker == st.tracker && !r.1.LimitReached?
  {
  }

  /** A search that shows its first page, with archive results, offers a
      "next" button whose payload carries the stripped text as the query:
      the page-turn protocol starts from what the user typed. */
  lemma SearchThenNext(st: State, sender: UserId, chat: ChatId, text: string, now: Time,
                       global: seq<SearchResult>, archive: seq<SearchResult>, hash: Hasher)
    ensures var r := OnMessage(st, sender, chat, text, now, global, archive, hash);
      r.1.ShowPage? && |archive| > 0 ==>
        var rows := r.1.message.rows;
        && |rows[|rows| - 1]| == 1
        && rows[|rows| - 1][0].caption == NextLabel
        && ParseNav(rows[|rows| - 1][0].data) == Some(Nav(1, Strip(text)))
  {
    var (tracker, gate) := SearchGate(st.roster, st.tracker, sender, text, now);
    var r := Answer(st.(tracker := tracker), gate, chat, global, archive, hash);
    assert r == OnMessage(st, sender, chat, text, now, global, archive, hash);
    if r.1.ShowPage? && |archive| > 0 {
      assert gate.query == Strip(text);
    }
  }

  /** After "next" the archive page is shown, and its "previous" button
      leads back to page 0 for the same query. */
  lemma NextThenPrevious(st: State, chat: ChatId, query: string,
                         global: seq<SearchResult>, archive: seq<SearchResult>, hash: Hasher)
    ensures var r := OnNavigate(st, chat, NextPayload(query), global, archive, hash);
      var rows := r.1.message.rows;
      && r.1.ShowPage?
      && |rows| == |archive| + 1
      && ResultRowsCorrect(rows, archive, hash)
      && |rows[|rows| - 1]| == 1
      && rows[|rows| - 1][0].caption == PrevLabel
      && ParseNav(rows[|rows| - 1][0].data) == Some(Nav(0, query))
  {
    NextRoundTrip(query);
  }

  /** After "previous" page 0 is shown again, and when there are archive
      results its "next" button leads to page 1 for the same query. */
  lemma PreviousThenNext(st: State, chat: ChatId, query: string,
                         global: seq<SearchResult>, archive: seq<SearchResult>, hash: Hasher)
    ensures var r := OnNavigate(st, chat, PrevPayload(query), global, archive, hash);
      var rows := r.1.message.rows;
      && r.1.ShowPage?
      && |rows| == |global| + 1
      && ResultRowsCorrect(rows, global, hash)
      && (|archive| > 0 ==>
            |rows[|rows| - 1]| == 1
            && rows[|rows| - 1][0].caption == NextLabel
            && ParseNav(rows[|rows| - 1][0].data) == Some(Nav(1, query)))
  {
    PrevRoundTrip(query);
  }

  /** A result button works once: the second click on the same payload asks
      the user to search again. */
  lemma SecondClickMisses(st: State, chat: ChatId, data: string)
    requires OnPdfClick(st, chat, data).1.PdfFound?
    ensures OnPdfClick(OnPdfClick(st, chat, data).0, chat, data).1 == SearchAgain
  {
  }

  /** A result shown on a freshly rendered first page can be fetched by
      clicking its button. */
  lemma ShownResultIsFetchable(st: State, sender: UserId, chat: ChatId, text: string, now: Time,
                               global: seq<SearchResult>, archive: seq<SearchResult>, hash: Hasher, i: int)
    ensures var r := OnMessage(st, sender, chat, text, now, global, archive, hash);
      r.1.ShowPage? && 0 <= i < |global| && LastWithHash(global, hash, i) ==>
        OnPdfClick(r.0, chat, r.1.message.rows[i][0].data).1 == PdfFound(Entry(global[i].title, global[i].url))
  {
    var r := OnMessage(st, sender, chat, text, now, global, archive, hash);
    if r.1.ShowPage? && 0 <= i < |global| && LastWithHash(global, hash, i) {
      ClickFindsResult(r.0, r.1.message.rows, chat, global, hash, i);
    }
  }

  /** Given rows and a cache as a render leaves them, clicking row `i`
      finds result `i`. */
  lemma ClickFindsResult(st: State, rows: seq<seq<Button>>, chat: ChatId,
                         shown: seq<SearchResult>, hash: Hasher, i: int)
    requires ResultRowsCorrect(rows, shown, hash) && ShownResultsCached(st.cache, chat, shown, hash)
    requires 0 <= i < |shown| && LastWithHash(shown, hash, i)
    ensures OnPdfClick(st, chat, rows[i][0].data).1 == PdfFound(Entry(shown[i].title, shown[i].url))
  {
    assert ParsePdf(rows[i][0].data) == Some(hash(shown[i].url));
    assert Take(st.cache, chat, hash(shown[i].url)).1 == Some(Entry(shown[i].title, shown[i].url));
  }
}

=== FILE: ids.dfy ===
/** Telegram's numeric identifiers, shared by every part of the bot. */
module Ids {

  /** A Telegram user (`event.sender_id`). */
  type UserId = int

  /** A Telegram chat (`event.chat_id`). */
  type ChatId = int
}

=== FILE: links.dfy ===
/** Turning the links scraped from a search-engine result page into result
    URLs, and capping how many results a search returns (bot.py:69-77). The
    HTTP fetch and the HTML parsing that find the `(title, href)` pairs are
    not modelled: the pairs arrive as a list. */
module Links {
  import opened Text

  /** One hit as scraped: the heading text and the anchor's raw `href`. */
  datatype Hit = Hit(title: string, href: string)

  /** One search result as the rest of the bot sees it. */
  datatype SearchResult = SearchResult(title: string, url: string)

  /** `href.split("&")[0].split("?q=")[-1]`: drop everything from the first
      `&`, then keep what follows the last `?q=`. The URL is a piece of the
      href, never holds an `&` or a `?q=`, and an href holding neither comes
      back unchanged. */
  function ExtractUrl(href: string): (url: string)
    ensures exists i :: SliceAt(href, i, url)
    ensures !Contains(url, "&") && !Contains(url, "?q=")
    ensures !Contains(href, "&") && !Contains(href, "?q=") ==> url == href
  {
    var head := FirstPiece(href, "&");
    var url := LastPiece(head, "?q=");
    assert SliceAt(href, 0, head);
    assert SliceAt(head, |head| - |url|, url);
    assert SliceAt(href, |head| - |url|, url) by {
      assert href[..|head|][|head| - |url|..] == href[|head| - |url|..|head|];
    }
    SliceIsFree(head, "&", |head| - |url|, url);
    url
  }

  /** Python's `xs[:n]`: a negative bound counts from the end. */
  function TakePrefix<T>(xs: seq<T>, n: int): (r: seq<T>)
    ensures |r| <= |xs| && r == xs[..|r|]
    ensures n >= 0 ==> |r| == if n < |xs| then n else |xs|
    ensures n < 0 ==> |r| == if |xs| + n > 0 then |xs| + n else 0
  {
    if n >= 0 then (if n < |xs| then xs[..n] else xs)
    else if |xs| + n > 0 then xs[..|xs| + n] else []
  }

  /** `results[:num_results]` over the list `perform_search` builds from a
      page of hits: every hit in order, its href cleaned by `ExtractUrl`,
      cut to the first `numResults` (Python's slice, so a negative bound
      drops that many from the end). */
  function CleanResults(hits: seq<Hit>, numResults: int): (r: seq<SearchResult>)
    ensures numResults >= 0 ==> |r| == if |hits| < numResults then |hits| else numResults
    ensures numResults < 0 ==> |r| == if |hits| + numResults > 0 then |hits| + numResults else 0
    ensures forall i :: 0 <= i < |r| ==>
      r[i].title == hits[i].title && r[i].url == ExtractUrl(hits[i].href)
    ensures forall i :: 0 <= i < |r| ==> !Contains(r[i].url, "&")
  {
    var all := seq(|hits|, i requires 0 <= i < |hits| => SearchResult(hits[i].title, ExtractUrl(hits[i].href)));
    var r := TakePrefix(all, numResults);
    assert forall i :: 0 <= i < |r| ==> r[i] == all[i];
    r
  }

  /** The shape of a search-engine redirect link: whatever prefix, then
      `?q=`, the target, `&` and tracking parameters. Extraction returns
      exactly the target whenever neither the prefix nor the target holds an
      `&` or a `?q=`. */
  lemma ExtractFromRedirect(p: string, u: string, rest: string)
    requires !Contains(p, "&") && !Contains(p, "?q=")
    requires !Contains(u, "&") && !Contains(u, "?q=")
    ensures ExtractUrl(p + "?q=" + u + "&" + rest) == u
  {
    var head := p + "?q=" + u;
    var href := head + "&" + rest;
    ContainsChar(p, '&');
    ContainsChar(u, '&');
    ContainsChar(head, '&');
    assert !Contains(head, "&") by {
      assert '&' !in p && '&' !in u;
      assert '&' !in "?q=";
      assert !('&' in head);
    }
    HeadIsFirstPiece(head, rest);
    LastPieceAfterMarker(p, u);
  }

  lemma HeadIsFirstPiece(head: string, rest: string)
    requires !Contains(head, "&")
    ensures FirstPiece(head + "&" + rest, "&") == head
  {
    var href := head + "&" + rest;
    assert href[|head|..|head| + 1] == "&";
    forall k | 0 <= k < |head| ensures !OccursAt(href, "&", k) {
      if OccursAt(href, "&", k) {
        assert head[k..k + 1] == href[k..k + 1];
        assert OccursAt(head, "&", k);
      }
    }
    IndexOfFirst(href, "&", |head|);
    assert href[..|head|] == head;
  }

  lemma LastPieceAfterMarker(p: string, u: string)
    requires !Contains(p, "?q=") && !Contains(u, "?q=")
    ensures LastPiece(p + "?q=" + u, "?q=") == u
  {
    var s := p + "?q=" + u;
    var m := "?q=";
    assert s[|p|..|p| + 3] == m;
    forall k | 0 <= k < |p| ensures !OccursAt(s, m, k) {
      if OccursAt(s, m, k) {
        // an occurrence straddling the end of p is impossible: no proper
        // suffix of "?q=" is a prefix of it
        if k + 3 <= |p| {
          assert p[k..k + 3] == s[k..k + 3];
          assert OccursAt(p, m, k);
        } else {
          MarkerDoesNotStraddle(p, u, k);
        }
      }
    }
    IndexOfFirst(s, m, |p|);
    assert s[..|p|] == p;
    assert s[|p| + 3..] == u;
    assert Split(u, m) == [u];
    assert Split(s, m) == [p] + Split(u, m);
  }

  lemma MarkerDoesNotStraddle(p: string, u: string, k: int)
    requires |p| - 3 < k < |p| && 0 <= k
    ensures !OccursAt(p + "?q=" + u, "?q=", k)
  {
    var s := p + "?q=" + u;
    assert s[|p|] == '?';
    if OccursAt(s, "?q=", k) {
      assert s[k..k + 3][|p| - k] == s[|p|];
    }
  }
}

=== FILE: pages.dfy ===
/** `send_results_page` (bot.py:91-116) and the parsing of the button
    payloads it emits (bot.py:212-214, 274-275, 280-284). A page is a message
    with a grid of inline buttons: one row per result, then one navigation
    row that may be empty. The query travels in the navigation payload, so
    a page turn needs no server-side session. */
module Pages {
  import opened Wrappers
  import opened Text
  import opened Links
  import opened UrlCache
  import opened Ids

  /** An inline button: its label and its callback data. */
  datatype Button = Button(caption: string, data: string)

  /** Whether the page answers a button click (`event.edit`) or a text
      message (`event.respond`). */
  datatype Delivery = Respond | Edit

  datatype Message = Message(text: string, rows: seq<seq<Button>>, delivery: Delivery)

  /** A decoded navigation payload. */
  datatype Nav = Nav(page: int, query: string)

  const MaxTitleLength: nat := 50
  const KeptTitleLength: nat := 47
  const Ellipsis := "..."

  const PdfPrefix := "pdf:"
  const NextPrefix := "next_page:"
  const PrevPrefix := "prev_page:"

  const NextLabel := "\U{27A1}\U{FE0F} Next Page (Archive.org)"
  const PrevLabel := "\U{2B05}\U{FE0F} Previous Page (Global)"
  const GlobalTitle := "\U{1F310} Global PDF Results"
  const ArchiveTitle := "\U{1F3DB}\U{FE0F} Internet Archive PDF Results"

  /** Button titles: at most 50 characters. A title that fits is kept as it
      is; a longer one keeps its first 47 characters followed by "...". */
  function Truncate(title: string): (r: string)
    ensures |r| <= MaxTitleLength
    ensures r == title <==> |title| <= MaxTitleLength
    ensures |title| > MaxTitleLength ==>
      |r| == MaxTitleLength && r[..KeptTitleLength] == title[..KeptTitleLength]
      && r[KeptTitleLength..] == Ellipsis
  {
    if |title| > MaxTitleLength then title[..KeptTitleLength] + Ellipsis else title
  }

  function ResultLabel(title: string): string {
    "\U{1F4DA} " + Truncate(title)
  }

  function PdfPayload(h: Digest): string { PdfPrefix + h }
  function NextPayload(query: string): string { NextPrefix + query }
  function PrevPayload(query: string): string { PrevPrefix + query }

  /** The regular expression `pdf:(.+)` that routes a click to
      `handle_callback_query`, matched at the start of the data. */
  predicate IsPdfData(data: string) {
    StartsWith(data, PdfPrefix) && |data| > |PdfPrefix| && data[|PdfPrefix|] != '\n'
  }

  /** `data.split(':')[1]` for a routed `pdf:` click: the text between the
      first and the second colon, or to the end when there is no second
      colon. */
  function ParsePdf(data: string): (r: Option<string>)
    ensures r.Some? <==> IsPdfData(data)
    ensures r.Some? ==> !Contains(r.value, ":")
    ensures r.Some? ==> StartsWith(data[|PdfPrefix|..], r.value)
    ensures r.Some? ==>
      (|data| == |PdfPrefix| + |r.value| ||
       (|PdfPrefix| + |r.value| < |data| && data[|PdfPrefix| + |r.value|] == ':'))
  {
    if IsPdfData(data) then
      PdfSecondPiece(data);
      Some(Split(data, ":")[1])
    else None
  }

  /** The second piece of a `pdf:` payload is the first piece of what
      follows the prefix: it runs up to the next colon or to the end. */
  lemma PdfSecondPiece(data: string)
    requires IsPdfData(data)
    ensures |Split(data, ":")| >= 2
    ensures var v := Split(data, ":")[1]; var rest := data[|PdfPrefix|..];
      v == FirstPiece(rest, ":") && StartsWith(rest, v) && !Contains(v, ":") &&
      (|data| == |PdfPrefix| + |v| || (|PdfPrefix| + |v| < |data| && data[|PdfPrefix| + |v|] == ':'))
  {
    assert data[..4] == PdfPrefix;
    forall k | 0 <= k < 3 ensures !OccursAt(data, ":", k) {
      assert data[k..k + 1][0] == PdfPrefix[k];
    }
    assert OccursAt(data, ":", 3);
    IndexOfFirst(data, ":", 3);
    var rest := data[4..];
    assert Split(data, ":") == [data[..3]] + Split(rest, ":");
    var v := FirstPiece(rest, ":");
    if Contains(rest, ":") {
      assert rest[|v|..|v| + 1] == ":";
      assert data[4 + |v|] == rest[|v|];
    }
  }

  /** The test of bot.py:212-214 and 274-275: a page turn is any data
      starting with `next_page:` (page 1) or `prev_page:` (page 0), and its
      query is everything after the first colon. */
  function ParseNav(data: string): (r: Option<Nav>)
    ensures r.Some? <==> StartsWith(data, NextPrefix) || StartsWith(data, PrevPrefix)
    ensures r.Some? ==> r.value.page == if StartsWith(data, NextPrefix) then 1 else 0
    ensures r.Some? ==> |r.value.query| < |data| && data[|data| - |r.value.query|..] == r.value.query
  {
    if StartsWith(data, NextPrefix) || StartsWith(data, PrevPrefix) then
      ContainsChar(data, ':');
      assert data[9] == ':';
      var parts := SplitOnce(data, ":");
      assert data == parts[0] + ":" + parts[1];
      assert data[|data| - |parts[1]|..] == parts[1];
      Some(Nav(if StartsWith(data, NextPrefix) then 1 else 0, parts[1]))
    else None
  }

  /** A payload made of a colon-free word, a colon and any text splits at
      that colon. */
  lemma SplitAfterWord(word: string, rest: string)
    requires ':' !in word
    ensures SplitOnce(word + ":" + rest, ":") == [word, rest]
  {
    var s := word + ":" + rest;
    forall k | 0 <= k < |word| ensures !OccursAt(s, ":", k) {
      assert s[k] == word[k];
    }
    SplitOnceAfterFreePrefix(word, ":", rest);
  }

  /** The "next" payload decodes to page 1 and exactly the query, colons in
      the query included. */
  lemma NextRoundTrip(query: string)
    ensures ParseNav(NextPayload(query)) == Some(Nav(1, query))
  {
    assert NextPayload(query) == "next_page" + ":" + query;
    SplitAfterWord("next_page", query);
  }

  /** The "previous" payload decodes to page 0 and exactly the query. */
  lemma PrevRoundTrip(query: string)
    ensures ParseNav(PrevPayload(query)) == Some(Nav(0, query))
  {
    assert PrevPayload(query) == "prev_page" + ":" + query;
    assert !StartsWith(PrevPayload(query), NextPrefix) by {
      assert PrevPayload(query)[0] != NextPrefix[0];
    }
    SplitAfterWord("prev_page", query);
  }

  /** A result button's payload decodes to the fingerprint it carries. */
  lemma PdfRoundTrip(h: Digest)
    ensures ParsePdf(PdfPayload(h)) == Some(h)
  {
    var s := PdfPayload(h);
    assert s == "pdf" + ":" + h;
    assert IsHexDigit(h[0]);
    ContainsChar(h, ':');
    assert ':' !in h by {
      forall k | 0 <= k < |h| ensures h[k] != ':' {
        assert IsHexDigit(h[k]);
      }
    }
    forall k | 0 <= k < 3 ensures !OccursAt(s, ":", k) {
      assert s[k] == "pdf"[k];
    }
    assert OccursAt(s, ":", 3);
    IndexOfFirst(s, ":", 3);
    assert s[4..] == h;
    assert Split(h, ":") == [h];
    assert Split(s, ":") == [s[..3]] + Split(h, ":");
  }

  /** bot.py:93: page 0 shows the global results, any other page the
      archive results. */
  function Shown(global: seq<SearchResult>, archive: seq<SearchResult>, page: int): seq<SearchResult> {
    if page == 0 then global else archive
  }

  function ResultRows(rs: seq<SearchResult>, hash: Hasher): (rows: seq<seq<Button>>)
    ensures |rows| == |rs|
    ensures forall i :: 0 <= i < |rs| ==> |rows[i]| == 1
  {
    seq(|rs|, i requires 0 <= i < |rs| =>
      [Button(ResultLabel(rs[i].title), PdfPayload(hash(rs[i].url)))])
  }

  lemma RowsDecode(rs: seq<SearchResult>, hash: Hasher)
    ensures forall i :: 0 <= i < |rs| ==>
      ParsePdf(ResultRows(rs, hash)[i][0].data) == Some(hash(rs[i].url))
  {
    forall i | 0 <= i < |rs| ensures ParsePdf(ResultRows(rs, hash)[i][0].data) == Some(hash(rs[i].url)) {
      PdfRoundTrip(hash(rs[i].url));
    }
  }

  /** bot.py:102-106: "next" on page 0 when there are archive results,
      otherwise "previous" on page 1, otherwise nothing. */
  function NavRow(archive: seq<SearchResult>, page: int, query: string): seq<Button> {
    if page == 0 && |archive| > 0 then [Button(NextLabel, NextPayload(query))]
    else if page == 1 then [Button(PrevLabel, PrevPayload(query))]
    else []
  }

  /** The header up to the query: it names the page, global or archive. */
  function HeaderLead(page: int): string {
    var title := if page == 0 then GlobalTitle else ArchiveTitle;
    "\U{1F4DA} " + title + " \U{1F4DA}\n\n\U{1F50D} Search query: "
  }

  /** The text above the buttons (bot.py:110-111): the page's title, then
      the query exactly as it was searched, then a blank line. */
  function Header(page: int, query: string): (h: string)
    ensures |h| == |HeaderLead(page)| + |query| + 2
    ensures h[..|HeaderLead(page)|] == HeaderLead(page)
    ensures h[|HeaderLead(page)|..|h| - 2] == query
    ensures h[|h| - 2..] == "\n\n"
  {
    HeaderLead(page) + query + "\n\n"
  }

  /** The header tells the global page from an archive page, whatever the
      two queries are. */
  lemma HeaderTellsPages(page: int, q1: string, q2: string)
    requires page != 0
    ensures Header(0, q1) != Header(page, q2)
  {
    assert Header(0, q1)[2] == GlobalTitle[0];
    assert Header(page, q2)[2] == ArchiveTitle[0];
  }

  /** The navigation row holds at most one button, labelled "next" or
      "previous": "next" exactly on page 0 with archive results, "previous"
      exactly on page 1, each decoding back to its target page and the same
      query. */
  predicate NavRowCorrect(nav: seq<Button>, archive: seq<SearchResult>, page: int, query: string) {
    && |nav| <= 1
    && (|nav| == 1 ==> nav[0].caption == NextLabel || nav[0].caption == PrevLabel)
    && ((|nav| == 1 && nav[0].caption == NextLabel) <==> page == 0 && |archive| > 0)
    && ((|nav| == 1 && nav[0].caption == PrevLabel) <==> page == 1)
    && (|nav| == 1 && nav[0].caption == NextLabel ==> ParseNav(nav[0].data) == Some(Nav(1, query)))
    && (|nav| == 1 && nav[0].caption == PrevLabel ==> ParseNav(nav[0].data) == Some(Nav(0, query)))
  }

  lemma NavRowIsCorrect(archive: seq<SearchResult>, page: int, query: string)
    ensures NavRowCorrect(NavRow(archive, page, query), archive, page, query)
  {
    NextRoundTrip(query);
    PrevRoundTrip(query);
    assert NextLabel[0] != PrevLabel[0];
  }

  /** One row per shown result, in order, labelled with the truncated
      title and carrying a payload that decodes to the URL's fingerprint. */
  predicate ResultRowsCorrect(rows: seq<seq<Button>>, shown: seq<SearchResult>, hash: Hasher) {
    |rows| >= |shown|
    && forall i :: 0 <= i < |shown| ==>
      |rows[i]| == 1
      && rows[i][0].caption == ResultLabel(shown[i].title)
      && ParsePdf(rows[i][0].data) == Some(hash(shown[i].url))
  }

  /** Clicking any shown result (the last one, should two URLs share a
      fingerprint) finds it in the cache. */
  predicate ShownResultsCached(c: Cache, chat: ChatId, shown: seq<SearchResult>, hash: Hasher) {
    forall i :: 0 <= i < |shown| && LastWithHash(shown, hash, i) ==>
      Take(c, chat, hash(shown[i].url)).1 == Some(Entry(shown[i].title, shown[i].url))
  }

  lemma ResultRowsAreCorrect(rs: seq<SearchResult>, hash: Hasher, nav: seq<Button>)
    ensures ResultRowsCorrect(ResultRows(rs, hash) + [nav], rs, hash)
  {
    RowsDecode(rs, hash);
    var rows := ResultRows(rs, hash) + [nav];
    assert forall i :: 0 <= i < |rs| ==> rows[i] == ResultRows(rs, hash)[i];
  }

  /** After the shown results are stored, clicking any of them finds it. */
  lemma StoredResultsResolve(c: Cache, chat: ChatId, shown: seq<SearchResult>, hash: Hasher)
    ensures ShownResultsCached(StoreAll(c, chat, shown, hash), chat, shown, hash)
  {
    var r := StoreAll(c, chat, shown, hash);
    forall i | 0 <= i < |shown| && LastWithHash(shown, hash, i)
      ensures Take(r, chat, hash(shown[i].url)).1 == Some(Entry(shown[i].title, shown[i].url))
    {
      assert hash(shown[i].url) in Hashes(shown, hash);
    }
  }

  /** The page the bot shows for `query`, and the cache after storing the
      shown results for `chat`: the global results on page 0, the archive
      results on any other page, in their original order, one button each,
      every one fetchable from the new cache; then exactly one navigation
      row. */
  function RenderPage(c: Cache, chat: ChatId, global: seq<SearchResult>, archive: seq<SearchResult>,
                      page: int, query: string, hash: Hasher, delivery: Delivery): (r: (Cache, Message))
    ensures |r.1.rows| == |Shown(global, archive, page)| + 1
    ensures ResultRowsCorrect(r.1.rows, Shown(global, archive, page), hash)
    ensures ShownResultsCached(r.0, chat, Shown(global, archive, page), hash)
    ensures NavRowCorrect(r.1.rows[|r.1.rows| - 1], archive, page, query)
    ensures r.0 == StoreAll(c, chat, Shown(global, archive, page), hash)
    ensures r.1.delivery == delivery
    ensures r.1.text == Header(page, query)
  {
    var shown := Shown(global, archive, page);
    var nav := NavRow(archive, page, query);
    ResultRowsAreCorrect(shown, hash, nav);
    NavRowIsCorrect(archive, page, query);
    StoredResultsResolve(c, chat, shown, hash);
    (StoreAll(c, chat, shown, hash), Message(Header(page, query), ResultRows(shown, hash) + [nav], delivery))
  }
}

=== FILE: quota.dfy ===
/** The per-user search quota of `handle_message` (bot.py:45-48, 132-151):
    regular users get `SearchLimit` searches, and their record is cleared
    lazily once more than `ResetTimeHours` have passed since their last
    search. Time is whole seconds; `datetime.now()` becomes the `now`
    parameter. */
module Quota {
  import opened Wrappers
  import opened Ids

  /** A timestamp, in seconds. */
  type Time = int

  const SearchLimit: nat := 2
  const ResetTimeHours: nat := 2
  const SecondsPerHour: nat := 3600
  const SecondsPerDay: nat := 86400

  /** `timedelta(hours=RESET_TIME_HOURS)`, in seconds. */
  const ResetWindow: nat := ResetTimeHours * SecondsPerHour

  /** One entry of `search_tracker`: `{count, last_search_time}`. */
  datatype Usage = Usage(count: nat, lastSearchTime: Option<Time>)

  /** The record `defaultdict` creates on first access. */
  const Unused := Usage(0, None)

  type Tracker = map<UserId, Usage>

  /** `search_tracker[user]` read without regard to the insertion it causes. */
  function UsageOf(t: Tracker, user: UserId): Usage {
    if user in t then t[user] else Unused
  }

  /** The strict test of bot.py:138: more than the window has passed. */
  predicate Expired(u: Usage, now: Time) {
    u.lastSearchTime.Some? && now - u.lastSearchTime.value > ResetWindow
  }

  /** The record after the lazy reset of bot.py:136-141: either untouched or
      started over, touched only when stale, never stale afterwards, and a
      consistent record stays consistent. */
  function AfterReset(u: Usage, now: Time): (v: Usage)
    ensures v == u || v == Unused
    ensures v != u ==> Expired(u, now)
    ensures u.lastSearchTime.None? ==> v == u
    ensures v.lastSearchTime.Some? ==> now - v.lastSearchTime.value <= ResetWindow
    ensures Consistent(u) ==> Consistent(v)
  {
    if Expired(u, now) then Unused else u
  }

  /** What the quota check decides. `Unbound` is the path on which bot.py:144
      reads `elapsed_time` without bot.py:137 having assigned it, so Python
      raises `UnboundLocalError` and the handler stops. */
  datatype Decision = Allowed | Denied(hours: int, minutes: int) | Unbound

  /** bot.py:144-146: the waiting time `timedelta(hours=2) - elapsed` read
      through `.seconds` (the part within one day, which Python keeps in
      [0, 86400) by floor division) and split by `divmod`. When the last
      search is at most a window old the split is exact: hours and whole
      minutes that add up to the remaining time, rounded down to a minute. */
  function RetryAfter(elapsed: int): (r: (int, int))
    ensures 0 <= r.0 && 0 <= r.1 < 60
    ensures 0 <= elapsed <= ResetWindow ==>
      r.0 * 3600 + r.1 * 60 <= ResetWindow - elapsed < r.0 * 3600 + r.1 * 60 + 60
    ensures 0 <= elapsed <= ResetWindow ==> r.0 <= ResetTimeHours
  {
    var seconds := (ResetWindow - elapsed) % SecondsPerDay;
    var hours := seconds / SecondsPerHour;
    var remainder := seconds % SecondsPerHour;
    (hours, remainder / 60)
  }

  /** The quota part of `handle_message` for a user outside `special_users`
      at time `now`: the new tracker and the decision. A search is allowed
      exactly when the record, after the lazy reset, is below the limit; it
      then counts one more search stamped `now`. A denial changes nothing.
      Only the caller's record can change, and it is present afterwards
      (reading a `defaultdict` inserts it). */
  function Check(t: Tracker, user: UserId, now: Time): (r: (Tracker, Decision))
    ensures user in r.0
    ensures forall v :: v != user ==> (v in r.0 <==> v in t)
    ensures forall v :: v != user && v in t ==> r.0[v] == t[v]
    ensures r.1.Allowed? <==> AfterReset(UsageOf(t, user), now).count < SearchLimit
    ensures r.1.Allowed? ==>
      r.0[user].count == AfterReset(UsageOf(t, user), now).count + 1
      && r.0[user].lastSearchTime == Some(now)
    ensures r.1.Unbound? <==>
      UsageOf(t, user).count >= SearchLimit && UsageOf(t, user).lastSearchTime.None?
    ensures !r.1.Allowed? ==> r.0 == t
    ensures r.1.Denied? ==>
      && UsageOf(t, user).lastSearchTime.Some?
      && !Expired(UsageOf(t, user), now)
      && UsageOf(t, user).count >= SearchLimit
      && (r.1.hours, r.1.minutes) == RetryAfter(now - UsageOf(t, user).lastSearchTime.value)
  {
    var u := UsageOf(t, user);
    var v := AfterReset(u, now);
    if v.count >= SearchLimit then
      match u.lastSearchTime
      case None => (t[user := v], Unbound)
      case Some(last) =>
        var wait := RetryAfter(now - last);
        (t[user := v], Denied(wait.0, wait.1))
    else
      (t[user := Usage(v.count + 1, Some(now))], Allowed)
  }

  /** The invariant that makes bot.py:144 safe: a record never exceeds the
      limit, and a record that counts a search knows when it happened. */
  predicate Consistent(u: Usage) {
    u.count <= SearchLimit && (u.count > 0 ==> u.lastSearchTime.Some?)
  }

  predicate TrackerConsistent(t: Tracker) {
    forall v :: v in t ==> Consistent(t[v])
  }

  /** Every quota check keeps every record consistent. */
  lemma CheckKeepsConsistent(t: Tracker, user: UserId, now: Time)
    requires TrackerConsistent(t)
    ensures TrackerConsistent(Check(t, user, now).0)
  {
    var r := Check(t, user, now);
    forall v | v in r.0 ensures Consistent(r.0[v]) {
      if v == user && r.1.Allowed? {
        assert r.0[v].count <= SearchLimit;
      }
    }
  }

  /** On consistent records the `UnboundLocalError` path is unreachable:
      whenever the limit is reached, `elapsed_time` has been assigned. */
  lemma ConsistentNeverUnbound(t: Tracker, user: UserId, now: Time)
    requires TrackerConsistent(t)
    ensures !Check(t, user, now).1.Unbound?
  {
    if user in t {
      assert Consistent(t[user]);
    }
  }

  /** Once more than the window has passed since the last search, a user at
      the limit is allowed again and starts over with one search. */
  lemma ExpiredRecordStartsOver(t: Tracker, user: UserId, now: Time)
    requires Expired(UsageOf(t, user), now)
    ensures Check(t, user, now).1 == Allowed
    ensures Check(t, user, now).0[user] == Usage(1, Some(now))
  {
  }

  /** Two searches `a <= b` from a fresh record are allowed; a third no more
      than a window after the second is denied and changes nothing. */
  lemma ThirdSearchInWindowDenied(t: Tracker, user: UserId, a: Time, b: Time, c: Time)
    requires user !in t
    requires a <= b <= c && b - a <= ResetWindow && c - b <= ResetWindow
    ensures var s1 := Check(t, user, a);
      var s2 := Check(s1.0, user, b);
      var s3 := Check(s2.0, user, c);
      s1.1 == Allowed && s2.1 == Allowed && s3.1.Denied? && s3.0 == s2.0
  {
    var s1 := Check(t, user, a);
    assert s1.0[user] == Usage(1, Some(a));
    var s2 := Check(s1.0, user, b);
    assert s2.0[user] == Usage(2, Some(b));
  }

  /** A user at the limit three hours after the last search is allowed with a
      count of one. */
  lemma ThreeHoursLaterAllowed(t: Tracker, user: UserId, now: Time)
    requires t == map[user := Usage(2, Some(now - 3 * SecondsPerHour))]
    ensures Check(t, user, now) == (map[user := Usage(1, Some(now))], Allowed)
  {
    assert t[user := Usage(1, Some(now))] == map[user := Usage(1, Some(now))];
  }

  /** A user at the limit ten minutes after the last search is told to come
      back in 1h 50m. */
  lemma TenMinutesLaterDenied(t: Tracker, user: UserId, now: Time)
    requires t == map[user := Usage(2, Some(now - 600))]
    ensures Check(t, user, now) == (t, Denied(1, 50))
  {
  }
}

=== FILE: superusers.dfy ===
/** The super-user roster `special_users` (bot.py:16-17, 38-43) and the
    `/addsuperuser` command that extends it (bot.py:225-252). Members of the
    roster search without a quota. Only the developer may add members, and
    an existing member is never renamed. */
module SuperUsers {
  import opened Wrappers
  import opened Ids

  /** User id -> display name (`None` when the account has no username). */
  type Roster = map<UserId, Option<string>>

  const DeveloperId: UserId := 1502110448

  const InitialRoster: Roster := map[
    1502110448 := Some("Deviprasad Shetty"),
    5792840252 := Some("Abhiiiiiiiiii"),
    1669299995 := Some("Ravina Mam")]

  /** The author of a message: id and username. */
  datatype Author = Author(id: UserId, username: Option<string>)

  /** `reply.forward` of a forwarded message: its original sender, or
      `None` when Telegram does not resolve that account (a hidden or
      unknown forward origin). */
  datatype Forward = Forward(sender: Option<Author>)

  /** The message the command replies to: its sender, and the forward
      header when it was forwarded. */
  datatype Replied = Replied(sender: Author, forward: Option<Forward>)

  datatype AddOutcome =
    | NotAuthorized
    | NotAReply
    /** bot.py:239 reads `.username` of an unresolved forward origin:
        Python raises `AttributeError` and the handler stops. */
    | UnknownOrigin
    | AlreadySuper(username: Option<string>)
    | Added(username: Option<string>)

  /** Whom a reply promotes: the original sender of a forwarded message,
      else the sender of the replied-to message (bot.py:236-243); nobody
      when the forward's origin is unresolved. */
  function Candidate(reply: Replied): Option<Author> {
    match reply.forward
    case Some(f) => f.sender
    case None => Some(reply.sender)
  }

  /** `/addsuperuser` sent by `caller`, possibly as a reply. Anyone but the
      developer is refused with the roster unchanged. The roster gains
      exactly the candidate, and only when the candidate is known and new;
      existing entries are never overwritten. */
  function AddSuperuser(roster: Roster, caller: UserId, reply: Option<Replied>): (r: (Roster, AddOutcome))
    ensures caller != DeveloperId ==> r == (roster, NotAuthorized)
    ensures r.1.NotAuthorized? <==> caller != DeveloperId
    ensures r.1.NotAReply? <==> caller == DeveloperId && reply.None?
    ensures r.1.UnknownOrigin? <==>
      caller == DeveloperId && reply.Some? && Candidate(reply.value).None?
    ensures r.1.Added? <==>
      caller == DeveloperId && reply.Some? && Candidate(reply.value).Some? &&
      Candidate(reply.value).value.id !in roster
    ensures r.1.Added? ==>
      var who := Candidate(reply.value).value;
      r.0 == roster[who.id := who.username] && r.1.username == who.username
    ensures r.1.AlreadySuper? <==>
      caller == DeveloperId && reply.Some? && Candidate(reply.value).Some? &&
      Candidate(reply.value).value.id in roster
    ensures r.1.AlreadySuper? ==> r.1.username == Candidate(reply.value).value.username
    ensures !r.1.Added? ==> r.0 == roster
    ensures roster.Keys <= r.0.Keys
    ensures forall id :: id in roster ==> r.0[id] == roster[id]
  {
    if caller != DeveloperId then (roster, NotAuthorized)
    else match reply
      case None => (roster, NotAReply)
      case Some(m) =>
        match Candidate(m)
        case None => (roster, UnknownOrigin)
        case Some(who) =>
          if who.id in roster then (roster, AlreadySuper(who.username))
          else (roster[who.id := who.username], Added(who.username))
  }

  /** One `/addsuperuser` command. */
  datatype AddCommand = AddCommand(caller: UserId, reply: Option<Replied>)

  function ApplyAll(roster: Roster, cmds: seq<AddCommand>): Roster
    decreases |cmds|
  {
    if |cmds| == 0 then roster
    else ApplyAll(AddSuperuser(roster, cmds[0].caller, cmds[0].reply).0, cmds[1..])
  }

  /** Over any run of commands, members stay members under their first
      name: the roster only grows. */
  lemma {:induction false} RosterOnlyGrows(roster: Roster, cmds: seq<AddCommand>)
    ensures roster.Keys <= ApplyAll(roster, cmds).Keys
    ensures forall id :: id in roster ==> ApplyAll(roster, cmds)[id] == roster[id]
    decreases |cmds|
  {
    if |cmds| > 0 {
      var next := AddSuperuser(roster, cmds[0].caller, cmds[0].reply).0;
      RosterOnlyGrows(next, cmds[1..]);
    }
  }

  /** Commands none of which the developer sent change nothing. */
  lemma {:induction false} OnlyDeveloperChangesRoster(roster: Roster, cmds: seq<AddCommand>)
    requires forall k :: 0 <= k < |cmds| ==> cmds[k].caller != DeveloperId
    ensures ApplyAll(roster, cmds) == roster
    decreases |cmds|
  {
    if |cmds| > 0 {
      assert cmds[0].caller != DeveloperId;
      OnlyDeveloperChangesRoster(roster, cmds[1..]);
    }
  }
}

=== FILE: text.dfy ===
/** The handful of Python `str` operations the bot relies on, over `string`
    (a sequence of Unicode scalar values, as Python's `str` is a sequence of
    code points): `startswith`, `strip()`, `split(sep)` and `split(sep, 1)`. */
module Text {
  import opened Wrappers

  /** `s.startswith(p)`. */
  predicate StartsWith(s: string, p: string) {
    |p| <= |s| && s[..|p|] == p
  }

  /** Python's `str.isspace()` for a single character: the characters whose
      bidirectional class is WS, B or S, or whose category is Zs. */
  predicate IsSpace(c: char) {
    || ('\U{0009}' <= c <= '\U{000D}')
    || ('\U{001C}' <= c <= '\U{0020}')
    || c == '\U{0085}' || c == '\U{00A0}' || c == '\U{1680}'
    || ('\U{2000}' <= c <= '\U{200A}')
    || c == '\U{2028}' || c == '\U{2029}' || c == '\U{202F}'
    || c == '\U{205F}' || c == '\U{3000}'
  }

  predicate AllSpace(s: string) {
    forall k :: 0 <= k < |s| ==> IsSpace(s[k])
  }

  /** `s.lstrip()`: drops the leading whitespace and nothing else. */
  function TrimStart(s: string): (r: string)
    ensures |r| <= |s| && r == s[|s| - |r|..]
    ensures AllSpace(s[..|s| - |r|])
    ensures r != [] ==> !IsSpace(r[0])
    decreases |s|
  {
    if |s| > 0 && IsSpace(s[0]) then
      var r := TrimStart(s[1..]);
      TrimStartStep(s, r);
      r
    else s
  }

  lemma TrimStartStep(s: string, r: string)
    requires |s| > 0 && IsSpace(s[0])
    requires |r| <= |s| - 1 && r == s[1..][|s| - 1 - |r|..]
    requires AllSpace(s[1..][..|s| - 1 - |r|])
    ensures r == s[|s| - |r|..]
    ensures AllSpace(s[..|s| - |r|])
  {
    assert s[1..][|s| - 1 - |r|..] == s[|s| - |r|..];
    forall k | 0 <= k < |s| - |r| ensures IsSpace(s[k]) {
      if k > 0 {
        assert s[k] == s[1..][..|s| - 1 - |r|][k - 1];
      }
    }
  }

  /** `s.rstrip()`: drops the trailing whitespace and nothing else. */
  function TrimEnd(s: string): (r: string)
    ensures |r| <= |s| && r == s[..|r|]
    ensures AllSpace(s[|r|..])
    ensures r != [] ==> !IsSpace(r[|r| - 1])
    decreases |s|
  {
    if |s| > 0 && IsSpace(s[|s| - 1]) then
      var r := TrimEnd(s[..|s| - 1]);
      TrimEndStep(s, r);
      r
    else s
  }

  lemma TrimEndStep(s: string, r: string)
    requires |s| > 0 && IsSpace(s[|s| - 1])
    requires |r| <= |s| - 1 && r == s[..|s| - 1][..|r|]
    requires AllSpace(s[..|s| - 1][|r|..])
    ensures r == s[..|r|]
    ensures AllSpace(s[|r|..])
  {
    assert s[..|s| - 1][..|r|] == s[..|r|];
    forall k | |r| <= k < |s| ensures IsSpace(s[k]) {
      if k < |s| - 1 {
        assert s[k] == s[..|s| - 1][|r|..][k - |r|];
      }
    }
    assert forall k :: 0 <= k < |s| - |r| ==> s[|r|..][k] == s[k + |r|];
  }

  /** `s.strip()`: the longest slice of `s` that neither starts nor ends with
      whitespace; it is empty exactly when `s` is blank. */
  function Strip(s: string): (r: string)
    ensures exists i :: SliceAt(s, i, r) && AllSpace(s[..i]) && AllSpace(s[i + |r|..])
    ensures r != [] ==> !IsSpace(r[0]) && !IsSpace(r[|r| - 1])
    ensures r == [] <==> AllSpace(s)
  {
    var t := TrimStart(s);
    var r := TrimEnd(t);
    StripParts(s, t, r);
    r
  }

  /** `r` is the slice of `s` that starts at index `i`. */
  predicate SliceAt(s: string, i: int, r: string) {
    0 <= i <= |s| - |r| && s[i..i + |r|] == r
  }

  /** Stripping both ends, stated over what `TrimStart` and `TrimEnd`
      promise: `t` is `s` minus a blank head, `r` is `t` minus a blank tail. */
  lemma StripParts(s: string, t: string, r: string)
    requires |t| <= |s| && t == s[|s| - |t|..] && AllSpace(s[..|s| - |t|])
    requires t != [] ==> !IsSpace(t[0])
    requires |r| <= |t| && r == t[..|r|] && AllSpace(t[|r|..])
    ensures exists i :: SliceAt(s, i, r) && AllSpace(s[..i]) && AllSpace(s[i + |r|..])
    ensures r == [] <==> AllSpace(s)
  {
    var i := |s| - |t|;
    assert SliceAt(s, i, r);
    assert s[i + |r|..] == t[|r|..];
    if r == [] {
      assert t[|r|..] == t;
      assert t == [];
      assert s[..i] == s;
    }
  }

  /** `sep` occurs in `s` starting at index `i`. */
  predicate OccursAt(s: string, sep: string, i: int) {
    0 <= i && i + |sep| <= |s| && s[i..i + |sep|] == sep
  }

  /** `sep in s`. */
  predicate Contains(s: string, sep: string) {
    exists i :: 0 <= i <= |s| - |sep| && OccursAt(s, sep, i)
  }

  lemma OccursAtShift(s: string, sep: string, i: int)
    requires |s| > 0 && i >= 0
    ensures OccursAt(s[1..], sep, i) <==> OccursAt(s, sep, i + 1)
  {
    if 0 <= i && i + |sep| <= |s| - 1 {
      assert s[1..][i..i + |sep|] == s[i + 1..i + 1 + |sep|];
    }
  }

  /** `s.find(sep)`: the first index at which `sep` occurs, if any. */
  function IndexOf(s: string, sep: string): (r: Option<nat>)
    ensures r.Some? ==> OccursAt(s, sep, r.value)
    ensures r.Some? ==> forall k :: 0 <= k < r.value ==> !OccursAt(s, sep, k)
    ensures r.None? <==> !Contains(s, sep)
    decreases |s|
  {
    if |s| < |sep| then None
    else if s[..|sep|] == sep then Some(0)
    else
      var rest := IndexOf(s[1..], sep);
      IndexOfStep(s, sep, rest);
      if rest.None? then None else Some(rest.value + 1)
  }

  lemma IndexOfStep(s: string, sep: string, rest: Option<nat>)
    requires |s| >= |sep| && s[..|sep|] != sep
    requires rest.Some? ==> OccursAt(s[1..], sep, rest.value)
    requires rest.Some? ==> forall k :: 0 <= k < rest.value ==> !OccursAt(s[1..], sep, k)
    requires rest.None? <==> !Contains(s[1..], sep)
    ensures rest.Some? ==> OccursAt(s, sep, rest.value + 1)
    ensures rest.Some? ==> forall k :: 0 <= k < rest.value + 1 ==> !OccursAt(s, sep, k)
    ensures rest.None? <==> !Contains(s, sep)
  {
    forall k | k >= 0 ensures OccursAt(s[1..], sep, k) <==> OccursAt(s, sep, k + 1) {
      OccursAtShift(s, sep, k);
    }
    assert !OccursAt(s, sep, 0);
    if rest.None? {
      forall k ensures !OccursAt(s, sep, k) {
        if k > 0 {
          assert !OccursAt(s[1..], sep, k - 1);
        }
      }
    } else {
      forall k | 0 <= k < rest.value + 1 ensures !OccursAt(s, sep, k) {
        if k > 0 {
          assert !OccursAt(s[1..], sep, k - 1);
        }
      }
    }
  }

  /** The first occurrence is unique: any index where `sep` occurs with no
      earlier occurrence is the one `IndexOf` reports. */
  lemma IndexOfFirst(s: string, sep: string, i: int)
    requires OccursAt(s, sep, i)
    requires forall k :: 0 <= k < i ==> !OccursAt(s, sep, k)
    ensures IndexOf(s, sep) == Some(i)
  {
    var r := IndexOf(s, sep);
  }

  /** `s.split(sep)` for a non-empty separator: the pieces between the
      non-overlapping occurrences of `sep`, found left to right. */
  function Split(s: string, sep: string): (r: seq<string>)
    requires |sep| > 0
    ensures |r| >= 1
    ensures |r| == 1 <==> !Contains(s, sep)
    ensures forall k :: 0 <= k < |r| ==> !Contains(r[k], sep)
    ensures Join(r, sep) == s
    decreases |s|
  {
    match IndexOf(s, sep)
    case None => [s]
    case Some(i) =>
      var tail := Split(s[i + |sep|..], sep);
      BeforeFirstIsFree(s, sep, i);
      [s[..i]] + tail
  }

  /** The text before the first occurrence of `sep` is free of `sep`. */
  lemma BeforeFirstIsFree(s: string, sep: string, i: nat)
    requires |sep| > 0
    requires OccursAt(s, sep, i)
    requires forall k :: 0 <= k < i ==> !OccursAt(s, sep, k)
    ensures s == s[..i] + sep + s[i + |sep|..]
    ensures !Contains(s[..i], sep)
  {
    forall k ensures !OccursAt(s[..i], sep, k) {
      if OccursAt(s[..i], sep, k) {
        assert s[..i][k..k + |sep|] == s[k..k + |sep|];
        assert OccursAt(s, sep, k);
      }
    }
  }

  /** `sep.join(pieces)`. */
  function Join(pieces: seq<string>, sep: string): string
    decreases |pieces|
  {
    if |pieces| == 0 then []
    else if |pieces| == 1 then pieces[0]
    else pieces[0] + sep + Join(pieces[1..], sep)
  }

  /** `s.split(sep)[0]`: everything before the first occurrence of `sep`,
      which is where the piece stops whenever `s` holds `sep`. */
  function FirstPiece(s: string, sep: string): (r: string)
    requires |sep| > 0
    ensures StartsWith(s, r)
    ensures !Contains(r, sep)
    ensures !Contains(s, sep) ==> r == s
    ensures Contains(s, sep) ==> OccursAt(s, sep, |r|)
  {
    var pieces := Split(s, sep);
    JoinStartsWithFirst(pieces, sep);
    SplitFirstPiece(s, sep);
    pieces[0]
  }

  /** `s.split(sep)[-1]`: what follows the last occurrence found, which
      `sep` directly precedes whenever `s` holds `sep`. */
  function LastPiece(s: string, sep: string): (r: string)
    requires |sep| > 0
    ensures |r| <= |s| && r == s[|s| - |r|..]
    ensures !Contains(r, sep)
    ensures !Contains(s, sep) ==> r == s
    ensures Contains(s, sep) ==> |r| + |sep| <= |s| && OccursAt(s, sep, |s| - |r| - |sep|)
  {
    var pieces := Split(s, sep);
    JoinEndsWithLast(pieces, sep);
    pieces[|pieces| - 1]
  }

  /** The first piece of a split ends at the first occurrence of `sep`. */
  lemma SplitFirstPiece(s: string, sep: string)
    requires |sep| > 0
    ensures IndexOf(s, sep).Some? ==> Split(s, sep)[0] == s[..IndexOf(s, sep).value]
  {
  }

  lemma JoinStartsWithFirst(pieces: seq<string>, sep: string)
    requires |pieces| >= 1
    ensures StartsWith(Join(pieces, sep), pieces[0])
  {
    if |pieces| > 1 {
      assert Join(pieces, sep) == pieces[0] + (sep + Join(pieces[1..], sep));
    }
  }

  /** A join ends with its last piece, and when there are several pieces
      the separator sits right before it. */
  lemma {:induction false} JoinEndsWithLast(pieces: seq<string>, sep: string)
    requires |pieces| >= 1
    ensures var j := Join(pieces, sep); var l := pieces[|pieces| - 1];
      |l| <= |j| && j[|j| - |l|..] == l &&
      (|pieces| >= 2 ==> |l| + |sep| <= |j| && OccursAt(j, sep, |j| - |l| - |sep|))
    decreases |pieces|
  {
    if |pieces| > 1 {
      JoinEndsWithLast(pieces[1..], sep);
      var rest := Join(pieces[1..], sep);
      var l := pieces[|pieces| - 1];
      var j := Join(pieces, sep);
      assert j == (pieces[0] + sep) + rest;
      if |pieces| == 2 {
        assert rest == l;
        assert j[|j| - |l| - |sep|..|j| - |l|] == sep;
      } else {
        var k := |rest| - |l| - |sep|;
        assert j[|j| - |l| - |sep|..|j| - |l|] == rest[k..k + |sep|];
      }
    }
  }

  /** `s.split(sep, 1)`: at most one cut, at the first occurrence. */
  function SplitOnce(s: string, sep: string): (r: seq<string>)
    requires |sep| > 0
    ensures 1 <= |r| <= 2
    ensures |r| == 2 <==> Contains(s, sep)
    ensures |r| == 1 ==> r[0] == s
    ensures |r| == 2 ==> s == r[0] + sep + r[1] && !Contains(r[0], sep)
  {
    match IndexOf(s, sep)
    case None => [s]
    case Some(i) =>
      BeforeFirstIsFree(s, sep, i);
      [s[..i], s[i + |sep|..]]
  }

  /** A piece free of `sep`, followed by `sep`, is exactly what one cut at
      `sep` returns first; the rest is returned untouched. */
  lemma {:induction false} SplitOnceAfterFreePrefix(a: string, sep: string, b: string)
    requires |sep| > 0
    requires forall k :: 0 <= k < |a| ==> !OccursAt(a + sep + b, sep, k)
    ensures SplitOnce(a + sep + b, sep) == [a, b]
  {
    var s := a + sep + b;
    assert s[|a|..|a| + |sep|] == sep;
    IndexOfFirst(s, sep, |a|);
    assert s[..|a|] == a;
    assert s[|a| + |sep|..] == b;
  }

  /** A slice of a text free of `sep` is itself free of `sep`. */
  lemma SliceIsFree(s: string, sep: string, i: int, r: string)
    requires SliceAt(s, i, r) && !Contains(s, sep)
    ensures !Contains(r, sep)
  {
    forall k | OccursAt(r, sep, k) ensures false {
      forall j | 0 <= j < |sep| ensures s[i + k + j] == sep[j] {
        assert r[k..k + |sep|][j] == r[k + j] == s[i..i + |r|][k + j];
      }
      assert s[i + k..i + k + |sep|] == sep;
      assert OccursAt(s, sep, i + k);
    }
  }

  /** For a one-character separator, containment is the ordinary
      membership of that character. */
  lemma ContainsChar(s: string, c: char)
    ensures Contains(s, [c]) <==> c in s
  {
    if c in s {
      var k :| 0 <= k < |s| && s[k] == c;
      assert OccursAt(s, [c], k);
    }
    if Contains(s, [c]) {
      var k :| 0 <= k <= |s| - 1 && OccursAt(s, [c], k);
      assert s[k] == s[k..k + 1][0];
    }
  }
}

=== FILE: urlcache.dfy ===
/** The per-chat result cache `url_cache` (bot.py:36, 96-97, 285-287, 324):
    chat -> (fingerprint -> {title, url}). Rendering a page puts entries, and
    a `pdf:` click takes one out. The MD5 digest is not modelled: it is any
    deterministic function from a URL to 32 lower-case hex digits, given as
    a parameter. */
module UrlCache {
  import opened Wrappers
  import opened Links
  import opened Ids

  predicate IsHexDigit(c: char) {
    ('0' <= c <= '9') || ('a' <= c <= 'f')
  }

  /** 32 lower-case hex digits: what `hashlib.md5(...).hexdigest()` returns. */
  predicate IsDigest(s: string) {
    |s| == 32 && forall k :: 0 <= k < |s| ==> IsHexDigit(s[k])
  }

  type Digest = s: string | IsDigest(s)
    witness "00000000000000000000000000000000"

  /** The URL fingerprint function. */
  type Hasher = string -> Digest

  /** A cached `{'title': ..., 'url': ...}` record. */
  datatype Entry = Entry(title: string, url: string)

  type ChatCache = map<Digest, Entry>
  type Cache = map<ChatId, ChatCache>

  /** `url_cache[chat]` read as a value: a chat never seen has no entries. */
  function EntriesOf(c: Cache, chat: ChatId): ChatCache {
    if chat in c then c[chat] else map[]
  }

  /** `url_cache[chat][h] = e`: overwrites any entry under the same
      fingerprint and leaves every other chat and fingerprint alone. */
  function Put(c: Cache, chat: ChatId, h: Digest, e: Entry): (r: Cache)
    ensures r.Keys == c.Keys + {chat}
    ensures EntriesOf(r, chat).Keys == EntriesOf(c, chat).Keys + {h}
    ensures EntriesOf(r, chat)[h] == e
    ensures forall g :: g in EntriesOf(c, chat) && g != h ==> EntriesOf(r, chat)[g] == EntriesOf(c, chat)[g]
    ensures forall other :: other in c && other != chat ==> r[other] == c[other]
  {
    c[chat := EntriesOf(c, chat)[h := e]]
  }

  /** The lookup and delete of `handle_callback_query`: `.get(h)` on
      `url_cache[chat]` (which inserts an empty dict for an unseen chat),
      then `del` of the entry once it has been found. The entry comes back
      at most once: it is gone afterwards, and nothing else changes. */
  function Take(c: Cache, chat: ChatId, h: Digest): (r: (Cache, Option<Entry>))
    ensures r.1 == (if h in EntriesOf(c, chat) then Some(EntriesOf(c, chat)[h]) else None)
    ensures h !in EntriesOf(r.0, chat)
    ensures EntriesOf(r.0, chat) == EntriesOf(c, chat) - {h}
    ensures r.0.Keys == c.Keys + {chat}
    ensures forall other :: other in c && other != chat ==> r.0[other] == c[other]
  {
    var entries := EntriesOf(c, chat);
    if h in entries then (c[chat := entries - {h}], Some(entries[h]))
    else (c[chat := entries], None)
  }

  /** Taking what was just put yields it, and taking it again misses. */
  lemma TakeOnce(c: Cache, chat: ChatId, h: Digest, e: Entry)
    ensures var first := Take(Put(c, chat, h, e), chat, h);
      first.1 == Some(e) && Take(first.0, chat, h).1 == None
  {
  }

  /** The hashes a list of results is stored under. */
  function Hashes(rs: seq<SearchResult>, hash: Hasher): set<Digest> {
    set i | 0 <= i < |rs| :: hash(rs[i].url)
  }

  /** No later result in `rs` shares the fingerprint of result `i`. */
  predicate LastWithHash(rs: seq<SearchResult>, hash: Hasher, i: int)
    requires 0 <= i < |rs|
  {
    forall j :: i < j < |rs| ==> hash(rs[j].url) != hash(rs[i].url)
  }

  /** The loop at bot.py:95-97: every result is put, in order, under the
      fingerprint of its URL. The chat ends up holding its old fingerprints
      and those of the results; a fingerprint shared by several results holds
      the last of them; fingerprints not rendered and other chats keep their
      entries. */
  function StoreAll(c: Cache, chat: ChatId, rs: seq<SearchResult>, hash: Hasher): (r: Cache)
    ensures EntriesOf(r, chat).Keys == EntriesOf(c, chat).Keys + Hashes(rs, hash)
    ensures forall i :: 0 <= i < |rs| && LastWithHash(rs, hash, i) ==>
      EntriesOf(r, chat)[hash(rs[i].url)] == Entry(rs[i].title, rs[i].url)
    ensures forall g :: g in EntriesOf(c, chat) && g !in Hashes(rs, hash) ==>
      EntriesOf(r, chat)[g] == EntriesOf(c, chat)[g]
    ensures r.Keys == if |rs| == 0 then c.Keys else c.Keys + {chat}
    ensures forall other :: other in c && other != chat ==> r[other] == c[other]
    decreases |rs|
  {
    if |rs| == 0 then
      assert Hashes(rs, hash) == {};
      c
    else
      var n := |rs| - 1;
      var front := rs[..n];
      var prior := StoreAll(c, chat, front, hash);
      var r := Put(prior, chat, hash(rs[n].url), Entry(rs[n].title, rs[n].url));
      HashesStep(rs, hash);
      HashesCover(front, hash);
      PutKeepsLast(prior, chat, rs, hash);
      r
  }

  /** Putting the final result keeps every earlier result that is the last
      with its fingerprint, given that the earlier ones were stored. */
  lemma PutKeepsLast(prior: Cache, chat: ChatId, rs: seq<SearchResult>, hash: Hasher)
    requires |rs| > 0
    ensures var n := |rs| - 1; var front := rs[..n];
      var r := Put(prior, chat, hash(rs[n].url), Entry(rs[n].title, rs[n].url));
      ((forall i :: 0 <= i < n ==> hash(front[i].url) in EntriesOf(prior, chat)) &&
       forall i :: 0 <= i < n && LastWithHash(front, hash, i) ==>
         EntriesOf(prior, chat)[hash(front[i].url)] == Entry(front[i].title, front[i].url))
      ==>
      (forall i :: 0 <= i < |rs| && LastWithHash(rs, hash, i) ==>
         hash(rs[i].url) in EntriesOf(r, chat) &&
         EntriesOf(r, chat)[hash(rs[i].url)] == Entry(rs[i].title, rs[i].url))
  {
    var n := |rs| - 1;
    var front := rs[..n];
    var r := Put(prior, chat, hash(rs[n].url), Entry(rs[n].title, rs[n].url));
    if (forall i :: 0 <= i < n ==> hash(front[i].url) in EntriesOf(prior, chat)) &&
       forall i :: 0 <= i < n && LastWithHash(front, hash, i) ==>
         EntriesOf(prior, chat)[hash(front[i].url)] == Entry(front[i].title, front[i].url)
    {
      LastWithHashStep(rs, hash);
      forall i | 0 <= i < |rs| && LastWithHash(rs, hash, i)
        ensures hash(rs[i].url) in EntriesOf(r, chat)
        ensures EntriesOf(r, chat)[hash(rs[i].url)] == Entry(rs[i].title, rs[i].url)
      {
        if i < n {
          assert front[i] == rs[i];
        }
      }
    }
  }

  /** Every result's fingerprint is among the fingerprints of the list. */
  lemma HashesCover(rs: seq<SearchResult>, hash: Hasher)
    ensures forall i :: 0 <= i < |rs| ==> hash(rs[i].url) in Hashes(rs, hash)
  {
  }

  /** The fingerprints of a list are those of the list without its final
      element, plus the final element's. */
  lemma HashesStep(rs: seq<SearchResult>, hash: Hasher)
    requires |rs| > 0
    ensures Hashes(rs, hash) == Hashes(rs[..|rs| - 1], hash) + {hash(rs[|rs| - 1].url)}
  {
    var n := |rs| - 1;
    var front := rs[..n];
    forall g | g in Hashes(rs, hash) ensures g in Hashes(front, hash) + {hash(rs[n].url)} {
      var i :| 0 <= i < |rs| && hash(rs[i].url) == g;
      if i < n {
        assert front[i] == rs[i];
      }
    }
    forall g | g in Hashes(front, hash) ensures g in Hashes(rs, hash) {
      var i :| 0 <= i < n && hash(front[i].url) == g;
      assert rs[i] == front[i];
    }
  }

  /** A result that is the last with its fingerprint, other than the final
      one, is also the last in the list without the final element, and its
      fingerprint differs from the final one's. */
  lemma LastWithHashStep(rs: seq<SearchResult>, hash: Hasher)
    requires |rs| > 0
    ensures forall i :: 0 <= i < |rs| - 1 && LastWithHash(rs, hash, i) ==>
      LastWithHash(rs[..|rs| - 1], hash, i) && hash(rs[i].url) != hash(rs[|rs| - 1].url)
  {
  }
}

=== FILE: wrappers.dfy ===
/** The Some/None datatype used wherever the bot reads a value that may be
    absent (Python's `None`, `dict.get`). */
module Wrappers {

  datatype Option<+T> = None | Some(value: T)
}
